=== FILE: README.md ===
# protobuf-rpc-js: correlation engine and example server, in Dafny

This project models the two sequential cores of protobuf-rpc-js:

* the client correlation engine built by `Service` in `index.js`, and
* the request handler of the example C++ WebSocket server.

On the client, a service holds the following:

* its resolved configuration: the URL, the `rpc`/`msg` codec pair and the `return_cls` table;
* the correlation table `do_msg`, which maps a uint32 id to a pending continuation;
* the WebSocket it sends on, with a single `onmessage` slot and a single `onerror` slot;
* a log of every completion callback invoked so far.

Each continuation is represented by what its closure captures: the method key and the caller's callback, named by a token. The operations are pure transitions on this state:

* the proxy call (`Client.Call`);
* `on_msg` (`Client.OnMsg` / `Client.Resolve`);
* `on_err` (`Client.OnErr`);
* the per-send error closure (`Client.ErrorCallback`);
* delivery of inbound socket events through the handlers currently installed (`Client.SocketMessage`, `Client.SocketError`).

`ClientTraces` folds these over event sequences and proves the following:

* at-most-once completion per callback;
* stale replies are dropped;
* a colliding id overwrites the earlier entry;
* replies delivered in reverse order still reach their own callers;
* a reply is decoded with the response class of the originating method;
* a socket error reaches only the latest call.

Codecs are uninterpreted function values (`Protocol.Codecs`). The binary default protocol is a parameter, because its byte-level encoding lives in protobufjs. The correlation id is an input in `[0, 2^32)`, in place of `crypto.randomBytes`.

Every codec function may throw, modelled as a `None` result. What the caller's callback does when invoked (return or throw) is an input of each reply, like the id. Several behaviours are reproduced as the code has them:

* there is no collision check: a call whose id is still pending silently replaces the earlier continuation (`ClientTraces.CollisionOverwrites`);
* `on_err` deletes and invokes without checking that the call is still pending, so an error after a reply invokes the same callback a second time (`ClientTraces.ErrorAfterReplyCompletesTwice`);
* if the payload decoder throws inside a continuation, the throw escapes before the `delete` on index.js:251; the entry stays pending and no callback fires (`Client.Resolve`);
* if the callback itself throws, the throw also escapes before that `delete`; the entry stays pending, and where the event loop survives the throw, a repeated reply invokes the callback again (`ClientTraces.ThrowingCallbackInvokedAgain`);
* if `msg.encode` throws, the call has no effect; if `rpc.encode` throws, the entry is already registered but nothing is sent (`Client.Call`).

The two outcomes of a throw inside a continuation, and every event after them, assume that a throw escaping a socket handler is reported and the event loop goes on, as in a browser. Under Node's default, which is where index.js gets its socket (`require('ws')`, index.js:27), such a throw ends the process and no further event happens (see "## Left out").

The at-most-once theorem (`ClientTraces.AtMostOnceCompletion`) therefore assumes that every call brings a new callback, that callbacks reached by a reply return, and that no truthy error reaches an error closure whose call is no longer pending.

On the server, `onBinary` is a pure function from a parsed request envelope `(name, id, payload)` to a response `(id, payload)` or a fault (`WsServer.Handle`). A server state holds the connected-client list and the messages sent; `onConnection`, `onDisconnect` and `onBinary` act on it. Failed `Q_ASSERT`s are modelled as they behave in a debug build, as `AssertionFailed` outcomes. Division by zero is unguarded in the code (example/server/cpp/ws-server.cpp:91) and undefined in C++; the model makes it the explicit fault `DivisionByZero` rather than a value. Operands are unbounded integers.

## Model

| member | source | states |
|---|---|---|
| Protocol.FillProtocol | index.js:197-214 | each of the four codec functions is the caller's when supplied and the binary default's otherwise, whether the caller omitted a whole half or one function of it |
| Protocol.ResolveProtocol | index.js:194-215 | with no `opts.protocol` the result is the binary protocol; otherwise it is the caller's object with its gaps filled |
| Protocol.AsOpts | index.js:198 | a resolved protocol seen as a caller object defines all four functions |
| Protocol.CompleteProtocolKept | index.js:198-214 | a caller object that defines all four functions is kept unchanged |
| Protocol.ResolveIdempotent | index.js:194-215 | applying the defaulting to its own result gives the same protocol |
| Protocol.CallerFieldsKept | index.js:199-214 | every caller-supplied encode/decode function survives resolution |
| ServiceMap.MethodKey | index.js:54 | a key is the service fqn, a dot, then the method name, and each part can be read back from it |
| ServiceMap.MethodKeyInjective | index.js:54 | within one service, two keys are equal exactly when the method names are |
| ServiceMap.MethodMap | index.js:53-58 | the `forEach` writes at most one key per method, and the last method's key holds the last method's response class |
| ServiceMap.MapTo | index.js:43-61 | `map_to` succeeds exactly when the service has a non-empty fully qualified name |
| ServiceMap.MethodMapKeys | index.js:53-58 | the keys written by the `forEach` loop are exactly the method keys of the service |
| ServiceMap.MethodMapValues | index.js:53-58 | with distinct method names, each method's key holds that method's response class |
| ServiceMap.KeyCount | index.js:53-58 | with distinct method names there are exactly as many keys as methods |
| ServiceMap.MapToCharacterised | index.js:43-61 | `map_to` yields one entry per RPC method, keyed `fqn + '.' + name`, holding its response class |
| Transport.Open | index.js:171-173 | an opened socket records the URL, has no handlers and has sent nothing |
| Transport.Send | index.js:174-182 | a send installs the handlers passed in both slots and appends its buffer to what was sent |
| Transport.SentInOrder | index.js:174-182 | after any sequence of sends, every buffer has gone out exactly once and in order |
| Transport.OnlyLatestHandlersLive | index.js:174-182 | after any non-empty sequence of sends, only the last send's message and error handlers are installed |
| Client.ResolveUrl | index.js:160-164 | the URL is the caller's when given, else `ws://localhost:80` |
| Client.ResolveReturnCls | index.js:219-224 | `return_cls` is the caller's table verbatim when given, else the result of `map_to` |
| Client.NewService | index.js:152-244 | construction fails exactly on an empty URL or on a `map_to` assertion; otherwise the service has the resolved URL, protocol and `return_cls`, an empty table, and a socket opened at the URL |
| Client.EncodedRequest | index.js:262-271 | the buffer handed to the transport is the envelope encoding of the method key, the id and the encoded payload, and it exists exactly when neither encoder throws |
| Client.Call | index.js:261-275 | if the payload encoder throws, nothing changes; otherwise exactly one entry is added or overwritten under the id and every other entry is left alone; if the envelope encoder then throws, nothing is sent and no handler changes; otherwise exactly one buffer, the encoded envelope, is sent, and `on_msg` and this call's error closure are installed; no callback is invoked |
| Client.ProxyCall | index.js:261-269 | the stub for a descriptor method registers under the method's fully qualified key and sends an envelope named by it |
| Client.DecodeReply | index.js:268 | a reply payload is decoded with the `return_cls` entry of the continuation's own method, or with no class when there is none |
| Client.Resolve | index.js:249-252 | for an unknown id nothing changes; for a known id whose payload decodes, exactly one `(null, value)` completion goes to that entry's callback, and the entry is removed if the callback returns and kept if it throws; when the payload decoder throws, nothing changes; no other entry changes |
| Client.OnMsg | index.js:247-253 | an envelope that fails to decode is dropped; otherwise it is routed by its id alone |
| Client.OnErr | index.js:256-259 | the entry under the id is deleted without checking that it exists, and the callback receives `(err, null)` |
| Client.ErrorCallback | index.js:271-273 | a falsy error is ignored; a truthy one goes to `on_err` with the id and callback captured by the send |
| Client.SocketMessage | index.js:175-177 | an inbound message reaches `on_msg` only once a send has installed it |
| Client.SocketError | index.js:178-180 | a socket error reaches only the error closure of the most recent send |
| ClientTraces.RunKeepsConfigAndExtendsLog | index.js:243-275 | across any sequence of events the configuration is fixed and completions are never retracted |
| ClientTraces.SecondReplyDropped | index.js:249-252 | after an id is answered by a callback that returns, a second reply for it changes nothing |
| ClientTraces.ThrowingCallbackInvokedAgain | index.js:249-252 | a callback that throws keeps its entry pending, so a repeated reply invokes it a second time |
| ClientTraces.ReplyDecodedWithOriginatingMethod | index.js:267-268 | a reply is decoded with the class of the method captured at call time, whatever other calls follow |
| ClientTraces.CallsKeepOtherEntries | index.js:267 | calls under other ids leave an entry untouched |
| ClientTraces.CollisionOverwrites | index.js:262-267 | a call under a pending id replaces the earlier continuation, and the reply goes to the new caller |
| ClientTraces.ReverseOrderDelivery | index.js:247-253 | two calls answered in the reverse order each complete their own callback with their own decoded payload |
| ClientTraces.SocketErrorFailsOnlyLatest | index.js:270-273 | a socket error fails only the latest call and leaves every other pending call pending |
| ClientTraces.FalsyErrorIgnored | index.js:272 | a falsy error event changes nothing |
| ClientTraces.ErrorAfterReplyCompletesTwice | index.js:256-259 | an error after the reply invokes the same callback a second time, so a callback can fire twice |
| ClientTraces.CallKeepsDistinct | index.js:267 | a call with a new callback preserves "no callback pending twice or both pending and completed" |
| ClientTraces.ResolveKeepsDistinct | index.js:249-252 | resolving a reply whose callback returns preserves that invariant |
| ClientTraces.ErrorKeepsDistinct | index.js:256-259 | an error reaching a still-pending call preserves that invariant |
| ClientTraces.StepKeepsDistinct | index.js:247-275 | every admissible event preserves that invariant |
| ClientTraces.AtMostOnceCompletion | index.js:247-275 | if every call brings a new callback, callbacks reached by replies return, and no error reaches a settled call, no callback is ever invoked twice |
| ClientTraces.NewServiceAtMostOnce | index.js:243-275 | from a freshly constructed service, every admissible run invokes each callback at most once |
| ClientTraces.DefaultReturnClsDecodesDeclaredType | index.js:219-224 | with the default `return_cls`, a method's reply is decoded with that method's declared response class |
| WsServer.CDiv | example/server/cpp/ws-server.cpp:91 | C++ integer division: the remainder is smaller in magnitude than the divisor and has the sign of the dividend |
| WsServer.CDivIsFloorForNonNegative | example/server/cpp/ws-server.cpp:91 | for a non-negative dividend and a positive divisor the quotient is the floor quotient |
| WsServer.CDivTruncatesNegative | example/server/cpp/ws-server.cpp:91 | with a negative operand the quotient truncates toward zero, e.g. -7 / 2 is -3 |
| WsServer.CString | example/server/cpp/ws-server.cpp:94 | the text read through `c_str()` is the longest prefix of the name without a NUL character: it stops just before the first NUL, and is the whole name when there is none |
| WsServer.Compute | example/server/cpp/ws-server.cpp:63-95 | an unknown name raises `<name>: not supported`, with the name cut at its first NUL; a known name computes exactly when the payload is of its message type and it is not a division by zero; only ack yields an ack result |
| WsServer.Handle | example/server/cpp/ws-server.cpp:63-98 | a response exists exactly when the method computes and the id is non-zero; it carries the request's id and the computed payload |
| WsServer.HandleDispatch | example/server/cpp/ws-server.cpp:63-95 | ack echoes the timestamp; add, sub and mul return the sum, difference and product; div returns the truncated quotient or faults on a zero divisor; any other name raises `<name>: not supported`, with the name cut at its first NUL |
| WsServer.ZeroIdOutcomes | example/server/cpp/ws-server.cpp:93-98 | an unknown name raises before the id is checked; a known name whose branch computes, with id 0, fails the id assertion |
| WsServer.NulCutsNotSupportedMessage | example/server/cpp/ws-server.cpp:94 | the unknown name `".x\0y"` raises `.x: not supported`, not the whole name |
| WsServer.HandleMeetsClientExpectation | example/server/cpp/ws-server.cpp:69-92 | every calculator request with operands in the ranges the example client uses is answered with its id and a value the client's own assertion accepts |
| WsServer.OnConnection | example/server/cpp/ws-server.cpp:44-45 | the new client is appended, so the list grows by one and keeps its earlier order |
| WsServer.RemoveAll | example/server/cpp/ws-server.cpp:115 | every occurrence of the client goes and every other client keeps its multiplicity |
| WsServer.OnDisconnect | example/server/cpp/ws-server.cpp:113-116 | succeeds exactly when the client was connected; then no occurrence of it remains, the list strictly shrinks and the others are kept |
| WsServer.OnBinary | example/server/cpp/ws-server.cpp:48-107 | a handled request adds exactly one response, addressed to the sender and carrying the request id; a raised one sends nothing |
| WsServer.ConnectThenDisconnect | example/server/cpp/ws-server.cpp:35-116 | connecting a new client and then disconnecting it restores the client list as a multiset |

## Left out

- WebSocket construction, the `binaryType` setting of `Transport.Ws.open` (index.js:70, absent from the inline transport `Service` uses at index.js:171-173), the synchronous `XMLHttpRequest` POST of `Transport.Xhr`, and `ByteBuffer` conversion (index.js:68-70, index.js:82-105): these are network I/O. The Ws transport is modelled only as its handler slots and its sequence of sent buffers.
- A caller-supplied `opts.transport` (index.js:185-190): the model uses the default inline WebSocket transport, whose `send` is the same as that of `Transport.Ws`.
- Aliasing of the configuration: index.js:198-214 fills the caller's `opts.protocol` object in place. `self.protocol` and `self.return_cls` (index.js:196, index.js:223) are references to the caller's objects or to the exported, mutable `Protocol.Binary` (index.js:284). The continuation reads them when a reply arrives (index.js:268), so mutating them after construction changes how later replies decode. The model copies the configuration into immutable values, and `ClientTraces.RunKeepsConfigAndExtendsLog` holds only when no such mutation happens.
- protobufjs: `toBuffer`, `decode`, `encodeJSON`/`decodeJSON`, `loadProto`, reflection, the `Protocol.Json` object, and `opts.rpc_message` (index.js:46-50, index.js:110-147, index.js:226-241). Codecs are uninterpreted functions. No byte-level round trip is claimed.
- The generated service stubs of protobufjs: `Client.ProxyCall` assumes a stub passes `fqn + '.' + name` as the method. A call to a method the descriptor lacks therefore cannot be expressed.
- `crypto.randomBytes` (index.js:263): the id is an input.
- Client.Resolve: the model assumes that an exception escaping a socket event handler is reported and the event loop continues, as in a browser. Under Node's default, with no `uncaughtException` handler, a throw from the payload decoder or the callback (index.js:250, index.js:268) escapes `onmessage` (index.js:175-177) and ends the process, so nothing after it happens; `ClientTraces.ThrowingCallbackInvokedAgain` then describes a run that cannot continue past its first reply.
- Client.SocketError: an `error` event that arrives before the first send finds the `onerror` slot empty. The model leaves the state unchanged and the run goes on. Under Node, an EventEmitter `error` event with no listener is thrown, and by default that ends the process.
- Client.Resolve: a callback is modelled as only returning or throwing, never as calling back into the service. The callback runs at index.js:250, inside the continuation (index.js:268), before `delete self.do_msg[rpc_res.id]` at index.js:251. If it makes a new proxy call that happens to draw the SAME id, that call registers its continuation and sends, and then index.js:251 deletes the new entry, so the reply to the new call is dropped. The model can only express the call after `Resolve`, where the new entry survives. With any other id the two orders end in the same state.
- The `mine` helper, the prototype assignments and the `module.exports` wrapper (index.js:35-41, index.js:165, index.js:191, index.js:216, index.js:280-282). The model follows `Service` at index.js:152, and an omitted `opts` is the all-absent `Client.Options`.
- The assertion `assert(service_cls)` (index.js:153): a descriptor is always supplied.
- The `assert(map[key])` of `map_to` (index.js:57): a response class is always defined.
- The whole example client (example/client/js/rpc-client.js). It is used only as the source of the operand ranges and expected results in `WsServer.HandleMeetsClientExpectation`.
- The Qt server lifecycle, signal wiring, logging, byte-array sizing asserts, and parsing of the request bytes (example/server/cpp/ws-server.cpp:10-33, example/server/cpp/ws-server.cpp:52-61, example/server/cpp/ws-server.cpp:99-104). The server starts from a parsed envelope. The model ASSUMES that a payload of another message type than the method name selects fails the parse assertion (`AssertionFailed`). In the code, `ParseFromString` fails only on malformed bytes, and a payload of another type may well parse by field number. Which one happens depends on the API message definitions.
- Integer widths of the API messages: api.proto is not part of this model. Operands and results are unbounded integers.
- Release builds of the server, where `Q_ASSERT` is compiled out: the model follows a debug build.

=== FILE: client.dfy ===
/**
 * The correlation engine built by `Service` in index.js.
 *
 * A service holds its resolved configuration, the correlation table `do_msg`
 * (uint32 id -> pending continuation), the WebSocket it sends on, and a log
 * of every completion callback invoked so far. Each continuation is
 * represented by what its closure captures: the method key (which selects the
 * response class) and the caller's callback, named by a token.
 *
 * The operations are pure transitions:
 *   Call      -- the proxy closure: register a continuation, send once;
 *   OnMsg     -- `on_msg`: decode the envelope and `Resolve` it;
 *   OnErr     -- `on_err`: delete the entry, fail the callback;
 *   ErrorCallback -- the per-send error closure (ignores falsy errors);
 *   SocketMessage / SocketError -- what the socket does with an inbound
 *   message or error event, through whichever handlers it currently holds.
 */
module Client {
  import opened Wrappers
  import opened Protocol
  import opened ServiceMap
  import Transport

  /** Identity of a caller's completion callback. */
  type Token = nat

  /** A truthy transport error value. Where an error handler may receive any
      value, a falsy one (`undefined`, `null`, `""`, ...) is `None`. */
  type Error = e: string | e != "" witness "error"

  /** What one `do_msg` closure captures: the method and the caller's callback. */
  datatype Pending = Pending(key: string, token: Token)

  /** `callback(null, value)` or `callback(err, null)`. */
  datatype Outcome = Ok(value: Value) | Err(error: Error)

  /** One invocation of a caller's callback. */
  datatype Completion = Completion(token: Token, outcome: Outcome)

  /** The message handler every send installs: `self.on_msg`. */
  datatype Dispatcher = OnMsgHandler

  /** The error closure each send installs, capturing that call's id and
      callback. */
  datatype ErrHandler = ErrHandler(id: uint32, token: Token)

  type Socket = Transport.WsSocket<Dispatcher, ErrHandler>

  /** The `opts` argument of `Service`; an omitted `opts` is all-`None`. */
  datatype Options = Options(
    url: Option<string>,
    protocol: Option<ProtocolOpts>,
    returnCls: Option<map<string, Cls>>)

  datatype Service = Service(
    url: string,
    codecs: Codecs,
    returnCls: map<string, Cls>,
    table: map<uint32, Pending>,
    log: seq<Completion>,
    socket: Socket)

  const DEFAULT_URL: string := "ws://localhost:80"

  /** The URL a service connects to. */
  function ResolveUrl(given: Option<string>): (url: string)
    ensures given.Some? ==> url == given.value
    ensures given.None? ==> url == "ws://localhost:80"
  {
    given.GetOr(DEFAULT_URL)
  }

  /** The `return_cls` table: the caller's verbatim, else `map_to` of the
      service (which may fail its assertion). */
  function ResolveReturnCls(svc: ServiceDescriptor, given: Option<map<string, Cls>>): (r: Option<map<string, Cls>>)
    ensures given.Some? ==> r == given
    ensures given.None? ==> r == MapTo(svc)
  {
    if given.Some? then given else MapTo(svc)
  }

  /** `Service(service_cls, opts)` with the default WebSocket transport: `None`
      where construction fails an assertion (an empty URL, or `map_to` on a
      service without a name). The table and the log start empty and the
      socket is opened at the resolved URL. */
  function NewService(svc: ServiceDescriptor, opts: Options, binary: Codecs): (r: Option<Service>)
    ensures r.Some? <==> ResolveUrl(opts.url) != "" && (opts.returnCls.Some? || svc.fqn != "")
    ensures r.Some? ==>
      && r.value.url == ResolveUrl(opts.url)
      && r.value.codecs == ResolveProtocol(opts.protocol, binary)
      && Some(r.value.returnCls) == ResolveReturnCls(svc, opts.returnCls)
      && r.value.table == map[] && r.value.log == []
      && r.value.socket == Transport.Open(r.value.url)
  {
    var url := ResolveUrl(opts.url);
    var returnCls := ResolveReturnCls(svc, opts.returnCls);
    if url == "" || returnCls.None? then None
    else Some(Service(url, ResolveProtocol(opts.protocol, binary), returnCls.value, map[], [], Transport.Open(url)))
  }

  /** The envelope a call for method `key` with payload `req` and id `id`
      hands to the transport: `None` when either encoder throws. */
  function EncodedRequest(c: Codecs, key: string, req: Value, id: uint32): (r: Option<Bytes>)
    ensures r.Some? <==> c.msgEncode(req).Some? && c.rpcEncode(Request(key, id, c.msgEncode(req).value)).Some?
    ensures r.Some? ==> r == c.rpcEncode(Request(key, id, c.msgEncode(req).value))
  {
    match c.msgEncode(req)
    case None => None
    case Some(data) => c.rpcEncode(Request(key, id, data))
  }

  /** The proxy closure: `method(req, callback)` with the id drawn as `id`.
      - If `msg.encode(req)` throws, nothing has happened yet: no entry, no send.
      - Otherwise exactly one entry is written, overwriting any earlier one
        under the same id, and every other entry is left alone.
      - If `rpc.encode` then throws, the entry stays registered but nothing is
        sent and no handler is installed.
      - Otherwise exactly one buffer is sent, and the send installs `on_msg`
        and this call's error closure.
      No callback is invoked and the configuration does not change. */
  function Call(s: Service, key: string, req: Value, id: uint32, token: Token): (s': Service)
    ensures s.codecs.msgEncode(req).None? ==> s' == s
    ensures s.codecs.msgEncode(req).Some? ==>
      && s'.table.Keys == s.table.Keys + {id}
      && s'.table[id] == Pending(key, token)
      && (forall k | k in s.table && k != id :: s'.table[k] == s.table[k])
    ensures s.codecs.msgEncode(req).Some? && EncodedRequest(s.codecs, key, req, id).None? ==>
      s'.socket == s.socket
    ensures EncodedRequest(s.codecs, key, req, id).Some? ==>
      && s'.socket.sent == s.socket.sent + [EncodedRequest(s.codecs, key, req, id).value]
      && s'.socket.onmessage == Some(OnMsgHandler)
      && s'.socket.onerror == Some(ErrHandler(id, token))
    ensures s'.log == s.log
    ensures s'.url == s.url && s'.codecs == s.codecs && s'.returnCls == s.returnCls
    ensures s'.socket.url == s.socket.url
  {
    match s.codecs.msgEncode(req)
    case None => s
    case Some(data) =>
      var rpcReq := Request(key, id, data);
      var registered := s.(table := s.table[rpcReq.id := Pending(key, token)]);
      match s.codecs.rpcEncode(rpcReq)
      case None => registered
      case Some(buf) =>
        registered.(socket := Transport.Send(s.socket, buf, OnMsgHandler, ErrHandler(rpcReq.id, token)))
  }

  /** The generated stub for the `i`-th method of the service: it calls the
      proxy with the method's fully qualified key. */
  function ProxyCall(s: Service, svc: ServiceDescriptor, i: nat, req: Value, id: uint32, token: Token): (s': Service)
    requires i < |svc.methods|
    ensures s.codecs.msgEncode(req).Some? ==>
              id in s'.table && s'.table[id] == Pending(MethodKey(svc.fqn, svc.methods[i].name), token)
    ensures EncodedRequest(s.codecs, MethodKey(svc.fqn, svc.methods[i].name), req, id).Some? ==>
              s'.socket.sent == s.socket.sent
                + [EncodedRequest(s.codecs, MethodKey(svc.fqn, svc.methods[i].name), req, id).value]
  {
    Call(s, MethodKey(svc.fqn, svc.methods[i].name), req, id, token)
  }

  /** How the `do_msg` closure for `p` decodes a reply payload: with the
      response class registered for the ORIGINATING method, or with no class
      at all when `return_cls` has none for it. */
  function DecodeReply(s: Service, p: Pending, data: Bytes): (r: Option<Value>)
    ensures p.key in s.returnCls ==> r == s.codecs.msgDecode(Some(s.returnCls[p.key]), data)
    ensures p.key !in s.returnCls ==> r == s.codecs.msgDecode(None, data)
  {
    s.codecs.msgDecode(Lookup(s.returnCls, p.key), data)
  }

  /** What the caller's callback does when it is invoked: return normally or
      throw. It is the caller's code, so it is an input of every step that
      invokes one. */
  datatype Reaction = Returns | Throws

  /** `on_msg` after the envelope has been decoded.
      - An unknown id changes nothing.
      - For a known id the continuation runs. If the payload decoder throws,
        the throw escapes before the `delete`: the entry stays and no callback
        is invoked.
      - Otherwise the callback is invoked once with `(null, value)`. If it
        returns, the entry is deleted. If it throws, the throw escapes before
        the `delete` too, and the entry stays pending.
      No other entry changes. */
  function Resolve(s: Service, res: Response, reaction: Reaction): (s': Service)
    ensures res.id !in s.table ==> s' == s
    ensures res.id in s.table && DecodeReply(s, s.table[res.id], res.data).None? ==> s' == s
    ensures res.id in s.table && DecodeReply(s, s.table[res.id], res.data).Some? ==>
      && s'.log == s.log + [Completion(s.table[res.id].token, Ok(DecodeReply(s, s.table[res.id], res.data).value))]
      && (reaction.Returns? ==> s'.table.Keys == s.table.Keys - {res.id})
      && (reaction.Throws? ==> s'.table == s.table)
    ensures forall k | k in s'.table :: k in s.table && s'.table[k] == s.table[k]
    ensures forall k | k in s.table && k != res.id :: k in s'.table
    ensures |s.log| <= |s'.log| <= |s.log| + 1 && s'.log[..|s.log|] == s.log
    ensures s'.url == s.url && s'.codecs == s.codecs && s'.returnCls == s.returnCls && s'.socket == s.socket
  {
    if res.id in s.table then
      var p := s.table[res.id];
      match DecodeReply(s, p, res.data)
      case None => s
      case Some(v) =>
        var invoked := s.(log := s.log + [Completion(p.token, Ok(v))]);
        if reaction.Throws? then invoked else invoked.(table := s.table - {res.id})
    else s
  }

  /** `on_msg(buf)`: an envelope that does not decode (the decoder throws) is
      dropped; otherwise it is resolved by its id alone. */
  function OnMsg(s: Service, buf: Bytes, reaction: Reaction): (s': Service)
    ensures s.codecs.rpcDecode(buf).None? ==> s' == s
    ensures s.codecs.rpcDecode(buf).Some? ==> s' == Resolve(s, s.codecs.rpcDecode(buf).value, reaction)
  {
    match s.codecs.rpcDecode(buf)
    case None => s
    case Some(res) => Resolve(s, res, reaction)
  }

  /** `on_err(err, id, callback)`: deletes the entry under `id` WITHOUT checking
      that it exists or still belongs to this callback, then invokes the
      callback with `(err, null)`. The `delete` comes first, so a callback that
      throws here leaves the same state as one that returns. */
  function OnErr(s: Service, err: Error, id: uint32, token: Token): (s': Service)
    ensures id !in s'.table
    ensures s'.table.Keys == s.table.Keys - {id}
    ensures forall k | k in s'.table :: s'.table[k] == s.table[k]
    ensures s'.log == s.log + [Completion(token, Err(err))]
    ensures s'.url == s.url && s'.codecs == s.codecs && s'.returnCls == s.returnCls && s'.socket == s.socket
  {
    s.(table := s.table - {id}, log := s.log + [Completion(token, Err(err))])
  }

  /** The error closure a send installs: `if (err) on_err(err, id, callback)`. */
  function ErrorCallback(s: Service, h: ErrHandler, err: Option<Error>): (s': Service)
    ensures err.None? ==> s' == s
    ensures err.Some? ==> s' == OnErr(s, err.value, h.id, h.token)
  {
    if err.Some? then OnErr(s, err.value, h.id, h.token) else s
  }

  /** An inbound message on the socket reaches `on_msg` once any send has
      installed it, and is lost before that. */
  function SocketMessage(s: Service, buf: Bytes, reaction: Reaction): (s': Service)
    ensures s.socket.onmessage.None? ==> s' == s
    ensures s.socket.onmessage.Some? ==> s' == OnMsg(s, buf, reaction)
  {
    match s.socket.onmessage
    case None => s
    case Some(OnMsgHandler) => OnMsg(s, buf, reaction)
  }

  /** An error event on the socket reaches only the error closure of the most
      recent send. */
  function SocketError(s: Service, err: Option<Error>): (s': Service)
    ensures s.socket.onerror.None? ==> s' == s
    ensures s.socket.onerror.Some? ==> s' == ErrorCallback(s, s.socket.onerror.value, err)
  {
    match s.socket.onerror
    case None => s
    case Some(h) => ErrorCallback(s, h, err)
  }
}

=== FILE: client_traces.dfy ===
/**
 * Properties of the client correlation engine over several operations:
 * stale replies, id collisions, out-of-order replies, the error path, and a
 * run-level statement that every callback fires at most once as long as no
 * error reaches a call that was already settled.
 */
module ClientTraces {
  import opened Wrappers
  import opened Protocol
  import opened ServiceMap
  import opened Client

  /** What can happen to a service: a proxy call (with its id already drawn),
      an inbound message on the socket (with what the callback it reaches does),
      or an error event on the socket. */
  datatype Event =
    | CallEvent(key: string, req: Value, id: uint32, token: Token)
    | MessageEvent(buf: Bytes, reaction: Reaction)
    | SocketErrorEvent(err: Option<Error>)

  function Step(s: Service, e: Event): Service {
    match e
    case CallEvent(key, req, id, token) => Call(s, key, req, id, token)
    case MessageEvent(buf, reaction) => SocketMessage(s, buf, reaction)
    case SocketErrorEvent(err) => SocketError(s, err)
  }

  function Run(s: Service, events: seq<Event>): Service
    decreases |events|
  {
    if |events| == 0 then s else Run(Step(s, events[0]), events[1..])
  }

  /** The configuration never changes after construction, and the log only
      grows: completions are never retracted. */
  lemma {:induction false} RunKeepsConfigAndExtendsLog(s: Service, events: seq<Event>)
    ensures Run(s, events).url == s.url
    ensures Run(s, events).codecs == s.codecs
    ensures Run(s, events).returnCls == s.returnCls
    ensures |s.log| <= |Run(s, events).log| && Run(s, events).log[..|s.log|] == s.log
    decreases |events|
  {
    if |events| > 0 {
      var s1 := Step(s, events[0]);
      assert |s.log| <= |s1.log| && s1.log[..|s.log|] == s.log;
      RunKeepsConfigAndExtendsLog(s1, events[1..]);
    }
  }

  // ---------------------------------------------------------------------------
  // Single replies

  /** Once an id has been answered by a callback that returned, a second
      reply for it is dropped: nothing is invoked and nothing changes. */
  lemma SecondReplyDropped(s: Service, res: Response, again: Bytes, reaction: Reaction)
    requires res.id in s.table
    requires DecodeReply(s, s.table[res.id], res.data).Some?
    ensures var s1 := Resolve(s, res, Returns);
            res.id !in s1.table && Resolve(s1, Response(res.id, again), reaction) == s1
  {
  }

  /** A callback that throws out of `on_msg` skips the `delete`: its entry stays
      pending, and a second reply for the same id invokes it again. */
  lemma ThrowingCallbackInvokedAgain(s: Service, res: Response, reaction: Reaction)
    requires res.id in s.table
    requires DecodeReply(s, s.table[res.id], res.data).Some?
    ensures var s1 := Resolve(s, res, Throws);
            var s2 := Resolve(s1, res, reaction);
            && s1.table == s.table
            && |s2.log| == |s.log| + 2
            && s2.log[|s.log|] == s2.log[|s.log| + 1]
            && s2.log[|s.log|].token == s.table[res.id].token
            && !CallbacksDistinct(s2)
  {
  }

  /** A reply is decoded with the class of the method captured when the call
      was made, whatever other calls were registered later under other ids. */
  lemma ReplyDecodedWithOriginatingMethod(s: Service, key: string, req: Value, id: uint32, token: Token,
                                          later: seq<Event>, data: Bytes)
    requires s.codecs.msgEncode(req).Some?
    requires forall j | 0 <= j < |later| :: later[j].CallEvent? && later[j].id != id
    ensures var s1 := Run(Call(s, key, req, id, token), later);
            id in s1.table && s1.table[id] == Pending(key, token)
            && DecodeReply(s1, s1.table[id], data) == s.codecs.msgDecode(Lookup(s.returnCls, key), data)
  {
    CallsKeepOtherEntries(Call(s, key, req, id, token), later, id);
    RunKeepsConfigAndExtendsLog(Call(s, key, req, id, token), later);
  }

  /** Calls under other ids leave an entry alone. */
  lemma {:induction false} CallsKeepOtherEntries(s: Service, calls: seq<Event>, id: uint32)
    requires forall j | 0 <= j < |calls| :: calls[j].CallEvent? && calls[j].id != id
    requires id in s.table
    ensures id in Run(s, calls).table && Run(s, calls).table[id] == s.table[id]
    decreases |calls|
  {
    if |calls| > 0 {
      CallsKeepOtherEntries(Step(s, calls[0]), calls[1..], id);
    }
  }

  /** Ids are not checked for collision: a call under an id that is still
      pending replaces the earlier continuation, so the reply for that id goes
      to the NEW caller and the earlier caller is never answered by it. */
  lemma CollisionOverwrites(s: Service, key: string, req: Value, id: uint32, token: Token, data: Bytes)
    requires id in s.table && s.table[id].token != token
    requires s.codecs.msgEncode(req).Some?
    requires s.codecs.msgDecode(Lookup(s.returnCls, key), data).Some?
    ensures var s1 := Call(s, key, req, id, token);
            var s2 := Resolve(s1, Response(id, data), Returns);
            && s1.table[id].token == token
            && |s1.table| == |s.table|
            && s2.log == s.log + [Completion(token, Ok(s.codecs.msgDecode(Lookup(s.returnCls, key), data).value))]
            && id !in s2.table
  {
    var s1 := Call(s, key, req, id, token);
    assert s1.table.Keys == s.table.Keys;
  }

  /** Two calls under distinct ids answered in the reverse order still reach
      their own callbacks, each with its own payload decoded for its own
      method. */
  lemma ReverseOrderDelivery(s: Service, key1: string, req1: Value, id1: uint32, t1: Token,
                             key2: string, req2: Value, id2: uint32, t2: Token,
                             data1: Bytes, data2: Bytes)
    requires id1 != id2
    requires s.codecs.msgEncode(req1).Some? && s.codecs.msgEncode(req2).Some?
    requires s.codecs.msgDecode(Lookup(s.returnCls, key1), data1).Some?
    requires s.codecs.msgDecode(Lookup(s.returnCls, key2), data2).Some?
    ensures var s2 := Call(Call(s, key1, req1, id1, t1), key2, req2, id2, t2);
            var s4 := Resolve(Resolve(s2, Response(id2, data2), Returns), Response(id1, data1), Returns);
            && s4.log == s.log + [
                 Completion(t2, Ok(s.codecs.msgDecode(Lookup(s.returnCls, key2), data2).value)),
                 Completion(t1, Ok(s.codecs.msgDecode(Lookup(s.returnCls, key1), data1).value))]
            && id1 !in s4.table && id2 !in s4.table
            && s4.table.Keys == s.table.Keys - {id1, id2}
  {
  }

  // ---------------------------------------------------------------------------
  // The error path

  /** A socket error reaches only the latest call: the most recent caller gets
      `(err, null)` and its entry goes, while every other pending call stays
      pending. */
  lemma SocketErrorFailsOnlyLatest(s: Service, key: string, req: Value, id: uint32, token: Token, err: Error)
    requires EncodedRequest(s.codecs, key, req, id).Some?
    ensures var s1 := Call(s, key, req, id, token);
            var s2 := SocketError(s1, Some(err));
            && s2.log == s.log + [Completion(token, Err(err))]
            && s2.table.Keys == s.table.Keys - {id}
            && forall k | k in s.table && k != id :: s2.table[k] == s.table[k]
  {
  }

  /** A falsy error value is ignored by the send's error closure (and by no
      closure at all when the call sent nothing). */
  lemma FalsyErrorIgnored(s: Service, key: string, req: Value, id: uint32, token: Token)
    ensures var s1 := Call(s, key, req, id, token);
            SocketError(s1, None) == s1
  {
  }

  /** `on_err` does not check that the call is still pending: an error event
      after the reply has been delivered invokes the same callback a second
      time, now with an error. */
  lemma ErrorAfterReplyCompletesTwice(s: Service, key: string, req: Value, id: uint32, token: Token,
                                      buf: Bytes, data: Bytes, err: Error)
    requires EncodedRequest(s.codecs, key, req, id).Some?
    requires s.codecs.rpcDecode(buf) == Some(Response(id, data))
    requires s.codecs.msgDecode(Lookup(s.returnCls, key), data).Some?
    ensures var s3 := Run(s, [CallEvent(key, req, id, token), MessageEvent(buf, Returns), SocketErrorEvent(Some(err))]);
            && |s3.log| == |s.log| + 2
            && s3.log[|s.log|] == Completion(token, Ok(s.codecs.msgDecode(Lookup(s.returnCls, key), data).value))
            && s3.log[|s.log| + 1] == Completion(token, Err(err))
            && !CallbacksDistinct(s3)
  {
    var events := [CallEvent(key, req, id, token), MessageEvent(buf, Returns), SocketErrorEvent(Some(err))];
    var s1 := Step(s, events[0]);
    var s2 := Step(s1, events[1]);
    var s3 := Step(s2, events[2]);
    assert Run(s, events) == s3 by {
      assert events[1..][1..][1..] == [];
      assert Run(s2, events[1..][1..]) == Run(s3, events[1..][1..][1..]);
      assert Run(s1, events[1..]) == Run(s2, events[1..][1..]);
    }
    assert s3.log[|s.log|].token == s3.log[|s.log| + 1].token;
  }

  // ---------------------------------------------------------------------------
  // At most one completion per callback

  /** No callback is in the log twice, no callback is pending under two ids,
      and no pending callback has already been invoked. */
  ghost predicate CallbacksDistinct(s: Service) {
    && (forall i, j | 0 <= i < j < |s.log| :: s.log[i].token != s.log[j].token)
    && (forall a, b | a in s.table && b in s.table && a != b :: s.table[a].token != s.table[b].token)
    && (forall a, i | a in s.table && 0 <= i < |s.log| :: s.table[a].token != s.log[i].token)
  }

  /** A callback the service has never seen. */
  ghost predicate FreshToken(s: Service, t: Token) {
    && (forall i | 0 <= i < |s.log| :: s.log[i].token != t)
    && (forall a | a in s.table :: s.table[a].token != t)
  }

  /** A step callers can rely on: each call brings a new callback, callbacks
      reached by a reply return rather than throw, and a truthy error only
      reaches an error closure whose call is still pending under its own
      callback. */
  ghost predicate Admissible(s: Service, e: Event) {
    match e
    case CallEvent(_, _, _, t) => FreshToken(s, t)
    case MessageEvent(_, reaction) => reaction.Returns?
    case SocketErrorEvent(err) =>
      err.None? || s.socket.onerror.None?
      || (var h := s.socket.onerror.value; h.id in s.table && s.table[h.id].token == h.token)
  }

  ghost predicate AdmissibleRun(s: Service, events: seq<Event>)
    decreases |events|
  {
    |events| == 0 || (Admissible(s, events[0]) && AdmissibleRun(Step(s, events[0]), events[1..]))
  }

  /** A call with a new callback keeps the invariant, even when its id collides
      (the overwritten callback simply stops being pending). */
  lemma CallKeepsDistinct(s: Service, key: string, req: Value, id: uint32, t: Token)
    requires CallbacksDistinct(s) && FreshToken(s, t)
    ensures CallbacksDistinct(Call(s, key, req, id, t))
  {
  }

  /** Resolving a reply moves one pending callback into the log. */
  lemma ResolveKeepsDistinct(s: Service, res: Response)
    requires CallbacksDistinct(s)
    ensures CallbacksDistinct(Resolve(s, res, Returns))
  {
  }

  /** An error that reaches a still-pending call moves it into the log. */
  lemma ErrorKeepsDistinct(s: Service, err: Option<Error>)
    requires CallbacksDistinct(s) && Admissible(s, SocketErrorEvent(err))
    ensures CallbacksDistinct(SocketError(s, err))
  {
  }

  /** As long as every call brings a new callback, callbacks return, and no
      error reaches a call that is no longer pending, no callback is ever
      invoked twice, by replies or by errors or by both. */
  lemma {:induction false} AtMostOnceCompletion(s: Service, events: seq<Event>)
    requires CallbacksDistinct(s)
    requires AdmissibleRun(s, events)
    ensures CallbacksDistinct(Run(s, events))
    decreases |events|
  {
    if |events| > 0 {
      StepKeepsDistinct(s, events[0]);
      AtMostOnceCompletion(Step(s, events[0]), events[1..]);
    }
  }

  /** Every admissible event keeps the invariant. */
  lemma StepKeepsDistinct(s: Service, e: Event)
    requires CallbacksDistinct(s) && Admissible(s, e)
    ensures CallbacksDistinct(Step(s, e))
  {
  }

  /** A freshly constructed service satisfies the invariant, so every run of
      it with admissible events invokes each callback at most once. */
  lemma NewServiceAtMostOnce(svc: ServiceDescriptor, opts: Options, binary: Codecs, events: seq<Event>)
    requires NewService(svc, opts, binary).Some?
    requires AdmissibleRun(NewService(svc, opts, binary).value, events)
    ensures var r := Run(NewService(svc, opts, binary).value, events);
            forall i, j | 0 <= i < j < |r.log| :: r.log[i].token != r.log[j].token
  {
    AtMostOnceCompletion(NewService(svc, opts, binary).value, events);
  }

  // ---------------------------------------------------------------------------
  // End to end with the default response classes

  /** With `return_cls` derived by `map_to`, the generated stub for a method
      registers a continuation that decodes its reply with THAT method's
      declared response class. */
  lemma DefaultReturnClsDecodesDeclaredType(svc: ServiceDescriptor, opts: Options, binary: Codecs,
                                            i: nat, req: Value, id: uint32, token: Token, data: Bytes)
    requires opts.returnCls.None? && UniqueNames(svc.methods)
    requires NewService(svc, opts, binary).Some?
    requires i < |svc.methods|
    requires NewService(svc, opts, binary).value.codecs.msgEncode(req).Some?
    ensures var s := NewService(svc, opts, binary).value;
            var s1 := ProxyCall(s, svc, i, req, id, token);
            DecodeReply(s1, s1.table[id], data) == s.codecs.msgDecode(Some(svc.methods[i].responseCls), data)
  {
    MapToCharacterised(svc);
  }
}

=== FILE: protocol.dfy ===
/**
 * The wire vocabulary of the RPC client in index.js: the request and response
 * envelopes, the pair of codecs (`rpc` for envelopes, `msg` for payloads), and
 * the construction-time rule that fills every codec half the caller left out
 * from the binary protocol.
 *
 * The codecs themselves are protobuf serialisers and are not modelled: a codec
 * is an uninterpreted Dafny function value, and the binary default is passed in
 * as a parameter wherever it is needed.
 */
module Protocol {
  import opened Wrappers

  /** The correlation id field is a protobuf `uint32`. */
  newtype uint32 = x: int | 0 <= x < 0x1_0000_0000

  type Bytes = seq<bv8>

  /** A response class, as looked up by method key in `return_cls`. */
  type Cls = string

  /** A decoded payload message. The client never looks inside one. */
  datatype Value = Value(fields: seq<int>)

  /** `Rpc.Request { string name = 1; uint32 id = 2; bytes data = 3; }` */
  datatype Request = Request(name: string, id: uint32, data: Bytes)

  /** `Rpc.Response { uint32 id = 2; bytes data = 3; }`: no method name. */
  datatype Response = Response(id: uint32, data: Bytes)

  /** Envelope codec; each function yields `None` where the JavaScript one
      throws. The class argument of the source's `rpc.decode` is always the
      response envelope class, so it is left implicit. */
  type RpcEncoder = Request -> Option<Bytes>
  type RpcDecoder = Bytes -> Option<Response>

  /** Payload codec; each function yields `None` where the JavaScript one
      throws (the binary `toBuffer` throws on a missing required field).
      `decode` receives the response class, absent when the method has no
      `return_cls` entry. */
  type MsgEncoder = Value -> Option<Bytes>
  type MsgDecoder = (Option<Cls>, Bytes) -> Option<Value>

  /** A caller-supplied, possibly partial, protocol object (`opts.protocol`). */
  datatype RpcHalf = RpcHalf(encode: Option<RpcEncoder>, decode: Option<RpcDecoder>)
  datatype MsgHalf = MsgHalf(encode: Option<MsgEncoder>, decode: Option<MsgDecoder>)
  datatype ProtocolOpts = ProtocolOpts(rpc: Option<RpcHalf>, msg: Option<MsgHalf>)

  /** A resolved protocol: all four functions are present. */
  datatype Codecs = Codecs(
    rpcEncode: RpcEncoder,
    rpcDecode: RpcDecoder,
    msgEncode: MsgEncoder,
    msgDecode: MsgDecoder)

  /** The caller's field if it gave one, else the default's: the per-field
      reading of the defaulting rule, used as its reference definition. */
  function Prefer<F>(given: Option<F>, fallback: F): F {
    if given.Some? then given.value else fallback
  }

  function RpcEncodeOf(h: Option<RpcHalf>): Option<RpcEncoder> {
    if h.Some? then h.value.encode else None
  }

  function RpcDecodeOf(h: Option<RpcHalf>): Option<RpcDecoder> {
    if h.Some? then h.value.decode else None
  }

  function MsgEncodeOf(h: Option<MsgHalf>): Option<MsgEncoder> {
    if h.Some? then h.value.encode else None
  }

  function MsgDecodeOf(h: Option<MsgHalf>): Option<MsgDecoder> {
    if h.Some? then h.value.decode else None
  }

  /** Fills one caller-supplied protocol object from `binary`: a missing half is
      replaced by the binary half as a whole, a present half has each missing
      function filled in. */
  function FillProtocol(p: ProtocolOpts, binary: Codecs): (c: Codecs)
    ensures c.rpcEncode == Prefer(RpcEncodeOf(p.rpc), binary.rpcEncode)
    ensures c.rpcDecode == Prefer(RpcDecodeOf(p.rpc), binary.rpcDecode)
    ensures c.msgEncode == Prefer(MsgEncodeOf(p.msg), binary.msgEncode)
    ensures c.msgDecode == Prefer(MsgDecodeOf(p.msg), binary.msgDecode)
  {
    var rpc :=
      if p.rpc.None? then RpcHalf(Some(binary.rpcEncode), Some(binary.rpcDecode))
      else
        var h := p.rpc.value;
        RpcHalf(
          if h.encode.None? then Some(binary.rpcEncode) else h.encode,
          if h.decode.None? then Some(binary.rpcDecode) else h.decode);
    var msg :=
      if p.msg.None? then MsgHalf(Some(binary.msgEncode), Some(binary.msgDecode))
      else
        var h := p.msg.value;
        MsgHalf(
          if h.encode.None? then Some(binary.msgEncode) else h.encode,
          if h.decode.None? then Some(binary.msgDecode) else h.decode);
    Codecs(rpc.encode.value, rpc.decode.value, msg.encode.value, msg.decode.value)
  }

  /** The protocol a service ends up with: the binary protocol when the caller
      gave none, otherwise the caller's object with its gaps filled. */
  function ResolveProtocol(given: Option<ProtocolOpts>, binary: Codecs): (c: Codecs)
    ensures given.None? ==> c == binary
    ensures given.Some? ==> c == FillProtocol(given.value, binary)
  {
    if given.None? then binary else FillProtocol(given.value, binary)
  }

  /** A resolved protocol seen again as a protocol object with every field set. */
  function AsOpts(c: Codecs): (p: ProtocolOpts)
    ensures p.rpc.Some? && p.msg.Some?
    ensures RpcEncodeOf(p.rpc) == Some(c.rpcEncode) && RpcDecodeOf(p.rpc) == Some(c.rpcDecode)
    ensures MsgEncodeOf(p.msg) == Some(c.msgEncode) && MsgDecodeOf(p.msg) == Some(c.msgDecode)
  {
    ProtocolOpts(
      Some(RpcHalf(Some(c.rpcEncode), Some(c.rpcDecode))),
      Some(MsgHalf(Some(c.msgEncode), Some(c.msgDecode))))
  }

  /** A protocol object that already defines all four functions is kept as is,
      whatever the default. */
  lemma CompleteProtocolKept(c: Codecs, binary: Codecs)
    ensures ResolveProtocol(Some(AsOpts(c)), binary) == c
  {
  }

  /** Defaulting is idempotent: feeding the resolved protocol back in as the
      caller's object changes nothing. */
  lemma ResolveIdempotent(given: Option<ProtocolOpts>, binary: Codecs)
    ensures var once := ResolveProtocol(given, binary);
            ResolveProtocol(Some(AsOpts(once)), binary) == once
  {
  }

  /** Every caller-supplied function survives resolution unchanged. */
  lemma CallerFieldsKept(p: ProtocolOpts, binary: Codecs)
    ensures p.rpc.Some? && p.rpc.value.encode.Some? ==>
              ResolveProtocol(Some(p), binary).rpcEncode == p.rpc.value.encode.value
    ensures p.rpc.Some? && p.rpc.value.decode.Some? ==>
              ResolveProtocol(Some(p), binary).rpcDecode == p.rpc.value.decode.value
    ensures p.msg.Some? && p.msg.value.encode.Some? ==>
              ResolveProtocol(Some(p), binary).msgEncode == p.msg.value.encode.value
    ensures p.msg.Some? && p.msg.value.decode.Some? ==>
              ResolveProtocol(Some(p), binary).msgDecode == p.msg.value.decode.value
  {
  }
}

=== FILE: service_map.dfy ===
/**
 * `map_to` in index.js: the default `return_cls` table, keyed by the fully
 * qualified method key `fqn + '.' + name` of every RPC method of a service.
 */
module ServiceMap {
  import opened Wrappers
  import opened Protocol

  /** One RPC method as protobuf reflection reports it. */
  datatype RpcMethod = RpcMethod(name: string, responseCls: Cls)

  /** A service descriptor: its fully qualified name and its methods in
      declaration order. */
  datatype ServiceDescriptor = ServiceDescriptor(fqn: string, methods: seq<RpcMethod>)

  /** The key under which a method's response class is stored and by which the
      generated stub names the method when it calls the proxy. */
  function MethodKey(fqn: string, name: string): (k: string)
    ensures |k| == |fqn| + 1 + |name|
    ensures k[..|fqn|] == fqn && k[|fqn|] == '.' && k[|fqn| + 1..] == name
  {
    fqn + "." + name
  }

  /** Within one service, distinct method names give distinct keys. */
  lemma MethodKeyInjective(fqn: string, a: string, b: string)
    ensures MethodKey(fqn, a) == MethodKey(fqn, b) <==> a == b
  {
  }

  /** No two methods of the descriptor share a name (protobuf enforces this
      for a loaded service). */
  ghost predicate UniqueNames(methods: seq<RpcMethod>) {
    forall i, j | 0 <= i < j < |methods| :: methods[i].name != methods[j].name
  }

  /** The `forEach` loop of `map_to`: each method in turn writes its response
      class under its key, a later method overwriting an earlier one. */
  function MethodMap(fqn: string, methods: seq<RpcMethod>): (m: map<string, Cls>)
    ensures |m| <= |methods|
    ensures |methods| > 0 ==>
              && MethodKey(fqn, methods[|methods| - 1].name) in m
              && m[MethodKey(fqn, methods[|methods| - 1].name)] == methods[|methods| - 1].responseCls
    decreases |methods|
  {
    if |methods| == 0 then map[]
    else
      var last := methods[|methods| - 1];
      MethodMap(fqn, methods[..|methods| - 1])[MethodKey(fqn, last.name) := last.responseCls]
  }

  /** `map_to`: `None` where it fails its `assert(t_cls_fqn)`, i.e. the service
      has an empty fully qualified name. */
  function MapTo(svc: ServiceDescriptor): (r: Option<map<string, Cls>>)
    ensures r.Some? <==> svc.fqn != ""
  {
    if svc.fqn == "" then None else Some(MethodMap(svc.fqn, svc.methods))
  }

  /** The keys of the table are exactly the method keys of the service. */
  lemma {:induction false} MethodMapKeys(fqn: string, methods: seq<RpcMethod>)
    ensures MethodMap(fqn, methods).Keys
            == set i | 0 <= i < |methods| :: MethodKey(fqn, methods[i].name)
    decreases |methods|
  {
    if |methods| > 0 {
      var init := methods[..|methods| - 1];
      MethodMapKeys(fqn, init);
      var left := set i | 0 <= i < |init| :: MethodKey(fqn, init[i].name);
      var right := set i | 0 <= i < |methods| :: MethodKey(fqn, methods[i].name);
      forall k | k in right ensures k in left + {MethodKey(fqn, methods[|methods| - 1].name)} {
        var i :| 0 <= i < |methods| && k == MethodKey(fqn, methods[i].name);
        if i < |init| {
          assert k == MethodKey(fqn, init[i].name);
        }
      }
      forall k | k in left ensures k in right {
        var i :| 0 <= i < |init| && k == MethodKey(fqn, init[i].name);
        assert k == MethodKey(fqn, methods[i].name);
      }
    }
  }

  /** With unique names, every method's key maps to that method's own
      response class. */
  lemma {:induction false} MethodMapValues(fqn: string, methods: seq<RpcMethod>, i: nat)
    requires UniqueNames(methods)
    requires i < |methods|
    ensures MethodKey(fqn, methods[i].name) in MethodMap(fqn, methods)
    ensures MethodMap(fqn, methods)[MethodKey(fqn, methods[i].name)] == methods[i].responseCls
    decreases |methods|
  {
    var n := |methods| - 1;
    var init := methods[..n];
    if i < n {
      assert init[i] == methods[i];
      MethodMapValues(fqn, init, i);
      MethodKeyInjective(fqn, methods[i].name, methods[n].name);
    }
  }

  /** `map_to` yields one entry per method, keyed `fqn + '.' + name`, holding
      that method's response class. */
  lemma MapToCharacterised(svc: ServiceDescriptor)
    requires svc.fqn != ""
    requires UniqueNames(svc.methods)
    ensures MapTo(svc).Some?
    ensures MapTo(svc).value.Keys
            == set i | 0 <= i < |svc.methods| :: MethodKey(svc.fqn, svc.methods[i].name)
    ensures |MapTo(svc).value| == |svc.methods|
    ensures forall i | 0 <= i < |svc.methods| ::
              MapTo(svc).value[MethodKey(svc.fqn, svc.methods[i].name)] == svc.methods[i].responseCls
  {
    MethodMapKeys(svc.fqn, svc.methods);
    forall i | 0 <= i < |svc.methods|
      ensures MapTo(svc).value[MethodKey(svc.fqn, svc.methods[i].name)] == svc.methods[i].responseCls
    {
      MethodMapValues(svc.fqn, svc.methods, i);
    }
    KeyCount(svc.fqn, svc.methods);
  }

  /** Distinct names give as many keys as there are methods. */
  lemma {:induction false} KeyCount(fqn: string, methods: seq<RpcMethod>)
    requires UniqueNames(methods)
    ensures |set i | 0 <= i < |methods| :: MethodKey(fqn, methods[i].name)| == |methods|
    decreases |methods|
  {
    if |methods| > 0 {
      var n := |methods| - 1;
      var init := methods[..n];
      KeyCount(fqn, init);
      var left := set i | 0 <= i < |init| :: MethodKey(fqn, init[i].name);
      var right := set i | 0 <= i < |methods| :: MethodKey(fqn, methods[i].name);
      var last := MethodKey(fqn, methods[n].name);
      forall k | k in right ensures k in left + {last} {
        var i :| 0 <= i < |methods| && k == MethodKey(fqn, methods[i].name);
        if i < n {
          assert k == MethodKey(fqn, init[i].name);
        }
      }
      forall k | k in left + {last} ensures k in right {
        if k in left {
          var i :| 0 <= i < |init| && k == MethodKey(fqn, init[i].name);
          assert k == MethodKey(fqn, methods[i].name);
        }
      }
      assert right == left + {last};
      forall i | 0 <= i < |init| ensures MethodKey(fqn, init[i].name) != last {
        MethodKeyInjective(fqn, init[i].name, methods[n].name);
      }
      assert last !in left;
    }
  }
}

=== FILE: transport.dfy ===
/**
 * The persistent WebSocket transport of index.js: the inline transport
 * `Service` builds when the caller gives none, whose `send` is the same as
 * that of the exported `Transport.Ws`. (`Transport.Ws.open` also sets
 * `binaryType`, which the inline `open` does not; that is not modelled.)
 * The socket has ONE `onmessage` slot and ONE `onerror` slot; every `send`
 * overwrites both with the handlers it is given and then pushes its buffer.
 * Handlers are kept as data (`M`, `E`) so the model of the client can say
 * which closure each slot holds.
 */
module Transport {
  import opened Wrappers
  import opened Protocol

  datatype WsSocket<M, E> = WsSocket(
    url: string,
    onmessage: Option<M>,
    onerror: Option<E>,
    sent: seq<Bytes>)

  /** `open(url)`: a fresh socket with no handlers installed and nothing sent. */
  function Open<M, E>(url: string): (s: WsSocket<M, E>)
    ensures s.url == url && s.onmessage.None? && s.onerror.None? && s.sent == []
  {
    WsSocket(url, None, None, [])
  }

  /** `send(buffer, msg_callback, err_callback)`. */
  function Send<M, E>(s: WsSocket<M, E>, buf: Bytes, onMsg: M, onErr: E): (s': WsSocket<M, E>)
    ensures s'.url == s.url
    ensures s'.onmessage == Some(onMsg) && s'.onerror == Some(onErr)
    ensures s'.sent == s.sent + [buf]
  {
    s.(onmessage := Some(onMsg), onerror := Some(onErr), sent := s.sent + [buf])
  }

  /** One `send` call: the buffer and the two handlers passed with it. */
  datatype SendCall<M, E> = SendCall(buf: Bytes, onMsg: M, onErr: E)

  /** A sequence of sends, in order. */
  function SendAll<M, E>(s: WsSocket<M, E>, calls: seq<SendCall<M, E>>): (s': WsSocket<M, E>)
    decreases |calls|
  {
    if |calls| == 0 then s
    else
      var c := calls[|calls| - 1];
      Send(SendAll(s, calls[..|calls| - 1]), c.buf, c.onMsg, c.onErr)
  }

  /** The buffers of a sequence of sends, in order. */
  function Buffers<M, E>(calls: seq<SendCall<M, E>>): (bufs: seq<Bytes>)
    ensures |bufs| == |calls|
    ensures forall i | 0 <= i < |calls| :: bufs[i] == calls[i].buf
  {
    seq(|calls|, i requires 0 <= i < |calls| => calls[i].buf)
  }

  /** After any non-empty sequence of sends, every buffer has gone out exactly
      once and in order, and only the LAST send's handlers are installed: the
      error handlers of all earlier sends can never fire. */
  lemma {:induction false} OnlyLatestHandlersLive<M, E>(s: WsSocket<M, E>, calls: seq<SendCall<M, E>>)
    requires |calls| > 0
    ensures SendAll(s, calls).onerror == Some(calls[|calls| - 1].onErr)
    ensures SendAll(s, calls).onmessage == Some(calls[|calls| - 1].onMsg)
    ensures SendAll(s, calls).sent == s.sent + Buffers(calls)
    ensures SendAll(s, calls).url == s.url
  {
    SentInOrder(s, calls);
  }

  lemma {:induction false} SentInOrder<M, E>(s: WsSocket<M, E>, calls: seq<SendCall<M, E>>)
    ensures SendAll(s, calls).sent == s.sent + Buffers(calls)
    ensures SendAll(s, calls).url == s.url
    decreases |calls|
  {
    if |calls| > 0 {
      var init := calls[..|calls| - 1];
      SentInOrder(s, init);
      assert Buffers(calls) == Buffers(init) + [calls[|calls| - 1].buf];
    }
  }
}

=== FILE: wrappers.dfy ===
/** `Option` and `Result` datatypes and a map lookup, shared by the client and
    the server models. */
module Wrappers {

  /** A value that may be absent; in the JavaScript client, `None` stands for
      `undefined` (or, for error values, any falsy value). */
  datatype Option<+T> = None | Some(value: T) {

    /** Returns the wrapped value, or `default` when there is none. */
    function GetOr(default: T): T {
      match this
      case Some(v) => v
      case None => default
    }
  }

  /** The outcome of an operation that can raise: `Failure` carries what was raised. */
  datatype Result<+R, +E> = Success(value: R) | Failure(error: E)

  /** Looks `k` up in `m`, the way a JavaScript property read yields `undefined`
      for a missing key. */
  function Lookup<K, V>(m: map<K, V>, k: K): (r: Option<V>)
    ensures r.Some? <==> k in m
    ensures r.Some? ==> r.value == m[k]
  {
    if k in m then Some(m[k]) else None
  }
}

=== FILE: ws_server.dfy ===
/**
 * The example server (`WsServer` in example/server/cpp/ws-server.cpp), the
 * peer whose echo of the request id makes the client's correlation work.
 *
 * `onBinary` is modelled as a pure function from a parsed request envelope to
 * either the response envelope it sends back or what it raises. The request
 * bytes are not parsed here; which payload goes with which method name is an
 * assumption of the model (see `Compute`). Both the
 * `RpcException` of an unknown method and the failed `Q_ASSERT`s of a debug
 * build are outcomes, as is the integer division by zero that the source
 * leaves undefined. Operands are unbounded integers.
 */
module WsServer {
  import opened Wrappers
  import opened Protocol

  const ACK: string := ".Reflector.Service.ack"
  const ADD: string := ".Calculator.Service.add"
  const SUB: string := ".Calculator.Service.sub"
  const MUL: string := ".Calculator.Service.mul"
  const DIV: string := ".Calculator.Service.div"

  /** A request payload: a `Reflector.AckRequest`, or one of the calculator's
      `{lhs, rhs}` requests. */
  datatype ApiRequest = AckRequest(timestamp: int) | OperandsRequest(lhs: int, rhs: int)

  /** A response payload: `Reflector.AckResult` or a calculator `{value}`. */
  datatype ApiResponse = AckResult(timestamp: int) | ValueResult(value: int)

  /** The parsed `Rpc.Request` the server reads. */
  datatype ServerRequest = ServerRequest(name: string, id: uint32, data: ApiRequest)

  /** The `Rpc.Response` the server sends: the id and the payload, no name. */
  datatype ServerResponse = ServerResponse(id: uint32, data: ApiResponse)

  datatype Fault =
    | NotSupported(message: string)      // the RpcException thrown for an unknown name
    | AssertionFailed(condition: string) // a failed Q_ASSERT
    | DivisionByZero                     // `lhs / rhs` with `rhs == 0`

  /** C++ `/` on integers: the quotient truncated toward zero. */
  function CDiv(a: int, b: int): (q: int)
    requires b != 0
    ensures -(if b < 0 then -b else b) < a - q * b < (if b < 0 then -b else b)
    ensures a - q * b == 0 || ((a - q * b) < 0 <==> a < 0)
  {
    var n := if a < 0 then -a else a;
    var d := if b < 0 then -b else b;
    if (a < 0) == (b < 0) then n / d else -(n / d)
  }

  /** For the operands the example client draws (`lhs >= 0`, `rhs >= 1`), C++
      division agrees with the client's `Math.floor(lhs / rhs)`. */
  lemma CDivIsFloorForNonNegative(a: int, b: int)
    requires a >= 0 && b > 0
    ensures CDiv(a, b) * b <= a < (CDiv(a, b) + 1) * b
  {
  }

  /** It does not agree with floor division once one operand is negative. */
  lemma CDivTruncatesNegative()
    ensures CDiv(-7, 2) == -3 && CDiv(7, -2) == -3 && CDiv(7, 2) == 3
  {
  }

  /** The text a `QString` built from `c_str()` holds: the name up to, and
      not including, its first NUL character. */
  function CString(s: string): (r: string)
    ensures r <= s
    ensures '\0' !in r
    ensures |r| < |s| ==> s[|r|] == '\0'
    ensures '\0' !in s ==> r == s
  {
    if s == [] || s[0] == '\0' then [] else [s[0]] + CString(s[1..])
  }

  /** The message of the `RpcException` for an unknown method name. */
  function NotSupportedMessage(name: string): (m: string)
    ensures '\0' !in name ==> m == name + ": not supported"
  {
    CString(name) + ": not supported"
  }

  /** The payload computed for a request, before its id is set: the dispatch
      on the method name. The model ASSUMES that a payload of another message
      type than the name selects fails that branch's parse assertion. Whether
      protobuf would instead parse it by field number depends on the message
      definitions, which are not part of this model. */
  function Compute(name: string, data: ApiRequest): (r: Result<ApiResponse, Fault>)
    ensures name !in {ACK, ADD, SUB, MUL, DIV} ==> r == Failure(NotSupported(NotSupportedMessage(name)))
    ensures r.Success? <==>
      && name in {ACK, ADD, SUB, MUL, DIV}
      && (name == ACK <==> data.AckRequest?)
      && !(name == DIV && data.OperandsRequest? && data.rhs == 0)
    ensures r.Success? ==> (r.value.AckResult? <==> name == ACK)
    ensures name in {ACK, ADD, SUB, MUL, DIV} && r.Failure? ==> r.error.AssertionFailed? || r.error == DivisionByZero
  {
    if name == ACK then
      if data.AckRequest? then Success(AckResult(data.timestamp))
      else Failure(AssertionFailed("ack_parsed"))
    else if name == ADD || name == SUB || name == MUL || name == DIV then
      // the division branch reuses the multiplication branch's flag name
      if !data.OperandsRequest? then
        Failure(AssertionFailed(if name == ADD then "add_parsed" else if name == SUB then "sub_parsed" else "mul_parsed"))
      else if name == ADD then Success(ValueResult(data.lhs + data.rhs))
      else if name == SUB then Success(ValueResult(data.lhs - data.rhs))
      else if name == MUL then Success(ValueResult(data.lhs * data.rhs))
      else if data.rhs == 0 then Failure(DivisionByZero)
      else Success(ValueResult(CDiv(data.lhs, data.rhs)))
    else Failure(NotSupported(NotSupportedMessage(name)))
  }

  /** The outcome `onBinary` produces for one parsed request. */
  function Handle(req: ServerRequest): (r: Result<ServerResponse, Fault>)
    ensures r.Success? ==> r.value.id == req.id && req.id != 0
    ensures r.Success? <==> Compute(req.name, req.data).Success? && req.id != 0
    ensures r.Success? ==> r.value.data == Compute(req.name, req.data).value
  {
    match Compute(req.name, req.data)
    case Failure(f) => Failure(f)
    case Success(data) =>
      if req.id == 0 then Failure(AssertionFailed("m_res.id()"))
      else Success(ServerResponse(req.id, data))
  }

  /** What the example client asserts of each calculator reply. */
  ghost predicate ClientAccepts(name: string, lhs: int, rhs: int, value: int) {
    && (name == ADD ==> value == lhs + rhs)
    && (name == SUB ==> value == lhs - rhs)
    && (name == MUL ==> value == lhs * rhs)
    && (name == DIV ==> rhs != 0 && value * rhs <= lhs < (value + 1) * rhs)
  }

  /** Every calculator request the example client can issue (operands drawn as
      it draws them, any non-zero id) is answered with the same id and a value
      the client's own check accepts. */
  lemma HandleMeetsClientExpectation(name: string, id: uint32, lhs: int, rhs: int)
    requires name in {ADD, SUB, MUL, DIV}
    requires id != 0
    requires 0 <= lhs <= 255 && 0 <= rhs <= 256 && (name == DIV ==> rhs >= 1)
    ensures var r := Handle(ServerRequest(name, id, OperandsRequest(lhs, rhs)));
            && r.Success? && r.value.id == id && r.value.data.ValueResult?
            && ClientAccepts(name, lhs, rhs, r.value.data.value)
  {
  }

  /** The dispatch on the method name, case by case: arithmetic, the ack echo,
      the division guard, and the exception for any other name. */
  lemma HandleDispatch(req: ServerRequest)
    requires req.id != 0
    ensures req.name == ACK && req.data.AckRequest? ==>
              Handle(req) == Success(ServerResponse(req.id, AckResult(req.data.timestamp)))
    ensures req.name == ADD && req.data.OperandsRequest? ==>
              Handle(req) == Success(ServerResponse(req.id, ValueResult(req.data.lhs + req.data.rhs)))
    ensures req.name == SUB && req.data.OperandsRequest? ==>
              Handle(req) == Success(ServerResponse(req.id, ValueResult(req.data.lhs - req.data.rhs)))
    ensures req.name == MUL && req.data.OperandsRequest? ==>
              Handle(req) == Success(ServerResponse(req.id, ValueResult(req.data.lhs * req.data.rhs)))
    ensures req.name == DIV && req.data.OperandsRequest? && req.data.rhs != 0 ==>
              Handle(req) == Success(ServerResponse(req.id, ValueResult(CDiv(req.data.lhs, req.data.rhs))))
    ensures req.name == DIV && req.data.OperandsRequest? && req.data.rhs == 0 ==>
              Handle(req) == Failure(DivisionByZero)
    ensures req.name !in {ACK, ADD, SUB, MUL, DIV} ==>
              Handle(req) == Failure(NotSupported(NotSupportedMessage(req.name)))
  {
  }

  /** An unknown method raises before the id is looked at, so even id 0 gets
      the `RpcException`; a known method with id 0 fails the id assertion. */
  lemma ZeroIdOutcomes(name: string, data: ApiRequest)
    ensures name !in {ACK, ADD, SUB, MUL, DIV} ==>
              Handle(ServerRequest(name, 0, data)) == Failure(NotSupported(NotSupportedMessage(name)))
    ensures Compute(name, data).Success? ==>
              Handle(ServerRequest(name, 0, data)) == Failure(AssertionFailed("m_res.id()"))
  {
  }

  /** A name with an embedded NUL is reported only up to that character. */
  lemma {:induction false} NulCutsNotSupportedMessage(data: ApiRequest)
    ensures Compute(".x\0y", data) == Failure(NotSupported(".x: not supported"))
  {
    var name := ".x\0y";
    assert name[1] != ACK[1];
    assert name !in {ACK, ADD, SUB, MUL, DIV};
    assert CString(name) == ".x" by {
      assert CString(name[2..]) == [];
      assert CString(name[1..]) == [name[1]] + CString(name[2..]);
    }
    assert NotSupportedMessage(name) == ".x" + ": not supported";
    assert ".x" + ": not supported" == ".x: not supported";
    assert Compute(name, data) == Failure(NotSupported(NotSupportedMessage(name)));
  }

  // ---------------------------------------------------------------------------
  // Connected clients and the messages sent to them

  type ClientId = nat

  /** A response message and the client socket it was sent on. */
  datatype Sent = Sent(to: ClientId, response: ServerResponse)

  datatype ServerState = ServerState(clients: seq<ClientId>, outbox: seq<Sent>)

  /** `onConnection`: the new socket is appended to `m_clients`. */
  function OnConnection(s: ServerState, c: ClientId): (s': ServerState)
    ensures |s'.clients| == |s.clients| + 1 && s'.clients[|s.clients|] == c
    ensures s'.clients[..|s.clients|] == s.clients
    ensures multiset(s'.clients) == multiset(s.clients) + multiset{c}
    ensures s'.outbox == s.outbox
  {
    s.(clients := s.clients + [c])
  }

  /** `QList::removeAll`: every occurrence of `c` goes, and every other
      client keeps its multiplicity. */
  function RemoveAll(xs: seq<ClientId>, c: ClientId): (r: seq<ClientId>)
    ensures c !in r
    ensures forall x | x != c :: multiset(r)[x] == multiset(xs)[x]
    ensures |r| == |xs| - multiset(xs)[c]
    decreases |xs|
  {
    if |xs| == 0 then []
    else
      var rest := RemoveAll(xs[1..], c);
      assert xs == [xs[0]] + xs[1..];
      if xs[0] == c then rest else [xs[0]] + rest
  }

  /** `onDisconnect(client)`: every occurrence of the client is removed; the
      assertions that the list was non-empty and strictly shrank fail exactly
      when the client was not in it. */
  function OnDisconnect(s: ServerState, c: ClientId): (r: Result<ServerState, Fault>)
    ensures r.Success? <==> c in s.clients
    ensures r.Success? ==>
      && c !in r.value.clients
      && |r.value.clients| < |s.clients|
      && (forall x | x != c :: multiset(r.value.clients)[x] == multiset(s.clients)[x])
      && r.value.outbox == s.outbox
  {
    if |s.clients| == 0 then Failure(AssertionFailed("length > 0"))
    else
      var clients := RemoveAll(s.clients, c);
      if |clients| < |s.clients| then Success(s.(clients := clients))
      else Failure(AssertionFailed("m_clients.count() < length"))
  }

  /** `onBinary` from client `from`: a handled request adds exactly one
      response, addressed to the sender; a raised one sends nothing. */
  function OnBinary(s: ServerState, from: ClientId, req: ServerRequest): (r: Result<ServerState, Fault>)
    ensures r.Success? <==> Handle(req).Success?
    ensures r.Failure? ==> r.error == Handle(req).error
    ensures r.Success? ==>
      && r.value.clients == s.clients
      && r.value.outbox == s.outbox + [Sent(from, Handle(req).value)]
      && r.value.outbox[|s.outbox|].response.id == req.id
  {
    match Handle(req)
    case Failure(f) => Failure(f)
    case Success(res) => Success(s.(outbox := s.outbox + [Sent(from, res)]))
  }

  /** A connection followed by its disconnection leaves no trace of the client. */
  lemma ConnectThenDisconnect(s: ServerState, c: ClientId)
    requires c !in s.clients
    ensures var r := OnDisconnect(OnConnection(s, c), c);
            r.Success? && multiset(r.value.clients) == multiset(s.clients)
  {
  }
}
